=== FILE: README.md ===
# Chained and parallelized functional route guards

A Dafny model of the two guard combinators of `ngx-chain-functional-guards`,
an Angular library:

- `chainActivationGuards` and `chainDeactivationGuards` call route guards one
  at a time, in declared order. Each guard's first value is taken. Evaluation
  continues while that value is exactly `true` and stops after the first other
  value (`false` or a redirect `UrlTree`). The outcome is the last value seen.
- `parallelizeActivationGuards` calls every guard at once and merges their first
  values in the order they complete, with the same stopping rule. With no
  guards it returns `true` immediately.

The model reduces each guard's boolean, promise or observable result to a
normalised value: `True`, `False` or `Redirect(url)`. A guard callback is a
pure function of the injector and the router arguments. A composed guard
returns a `Run`, which holds the outcome and a trace of events:

- `ContextCaptured`: the `inject(EnvironmentInjector)` read.
- `Invoked`: one guard call, with the injector and arguments it received.
- `Settled`: one guard's first value being observed.

The parallel combinator also takes the completion order as an input. It is a
permutation of the guard indices.

Modules:

- `GuardResults`: the values, the three raw result shapes, `First`, the events.
- `ShortCircuit`: `takeWhile(val => val === true, true)` plus `last()`, and the
  documented reference rule `Decide` ("the first non-true result, or true").
- `ChainGuard`: the sequential combinator, call-shape flattening, both entry points.
- `ParallelizeGuard`: the parallel combinator, how it relates to the chain, and a parallel group nested in a chain.

Where the documentation comment and the code disagree, the model follows the code:

- An empty chain does not yield `true`. The comment at `chain.guard.ts:18` says
  the chain returns "the result of the first guard that returns `false` or an
  instance of a `UrlTree`, otherwise `true`". But the code has no empty check,
  so `from([])` completes without emitting and `last()` raises EmptyError. The
  model gives `EmptyError` (`ChainEmpty`). Only the parallel combinator has an
  explicit empty case returning `true`.

Notes on behaviour the model reproduces:

- The chain reads the injector (`inject(EnvironmentInjector)`) even when it has
  no guards. The parallel combinator does not read it when it has no guards.
- An observable guard that completes without emitting makes `first()` raise
  EmptyError. The model represents this as `NoValue`. It ends the combinator
  with `EmptyError` when it is observed before any value other than `true`. A
  guard after the stopping one, in declared order for the chain or in arrival
  order for the parallel combinator, is not observed and changes nothing.

## Model

| member | source | states |
|---|---|---|
| GuardResults.First | libs/ngx-chain-functional-guards/src/lib/chain.guard.ts:60 | The first value of `wrapIntoObservable(raw)`: `NoValue` exactly when it emits nothing, otherwise its first emission |
| ShortCircuit.Last | libs/ngx-chain-functional-guards/src/lib/chain.guard.ts:63 | `last()` yields a value exactly when the stream completed after emitting something, and that value is the final emission |
| ShortCircuit.StopFrom | libs/ngx-chain-functional-guards/src/lib/chain.guard.ts:62 | The stopping position is the first one at or after `i` whose value is not exactly `true`. Every value before it is exactly `true` |
| ShortCircuit.DecideTrueIff | libs/ngx-chain-functional-guards/src/lib/chain.guard.ts:14-18 | The reference rule gives `true` exactly when there is at least one result and every result is exactly `true` |
| ShortCircuit.DecideStopIsFirst | libs/ngx-chain-functional-guards/src/lib/chain.guard.ts:18 | Any other decided value is the first non-true result, returned unchanged. All earlier results are `true`, and the consumed prefix ends at that result |
| ShortCircuit.DecideIgnoresRest | libs/ngx-chain-functional-guards/src/lib/parallelize.guard.ts:31 | Two result lists that agree up to and including the first stopping result give the same decision and consume the same prefix |
| ChainGuard.Flatten | libs/ngx-chain-functional-guards/src/lib/chain.guard.ts:51-55 | A single array argument is unwrapped to its guard list; otherwise the arguments are exactly the guards passed individually, so spreading the result gives the arguments back |
| ChainGuard.FlattenForms | libs/ngx-chain-functional-guards/src/lib/chain.guard.ts:51-55 | One array argument `[gs]` and the same guards passed individually flatten to the same ordered list `gs`. This includes a single guard and the empty list |
| ChainGuard.CallFormsAgree | libs/ngx-chain-functional-guards/src/lib/chain.guard.ts:92-96 | For both entry points, the array form and the rest-parameter form give the same outcome and the same trace |
| ChainGuard.CallPairs | libs/ngx-chain-functional-guards/src/lib/chain.guard.ts:58-61 | In a sequential trace, guard `j`'s call sits at offset `2j` and its settlement at `2j+1`, just before guard `j+1`'s call. So start_j < end_j < start_(j+1) |
| ChainGuard.CallPairsOrder | libs/ngx-chain-functional-guards/src/lib/chain.guard.ts:57-61 | A sequential trace calls exactly the guards in its range and observes exactly their values. Each call gets the same injector and arguments. Guard indices never decrease along the trace |
| ChainGuard.ChainFromSpec | libs/ngx-chain-functional-guards/src/lib/chain.guard.ts:57-63 | From any position on, the lazy chain calls exactly the guards up to and including the first non-true one. Its stream errors exactly when that guard emitted nothing. `last()` then yields the reference rule's value |
| ChainGuard.Chain | libs/ngx-chain-functional-guards/src/lib/chain.guard.ts:48-64 | The composed guard's outcome is the reference rule applied to the guards' first values in declared order. Its trace is the injector read, then a call and settlement pair per guard, in declared order, up to and including the first non-true one |
| ChainGuard.ChainFrom | libs/ngx-chain-functional-guards/src/lib/chain.guard.ts:57-63 | The lazy `concatMap`/`first()`/`takeWhile` stream from guard `i` on, which calls a guard only after the previous one settled to `true`. It carries no contract of its own; `ChainFromSpec` characterises it |
| ChainGuard.ChainShortCircuit | libs/ngx-chain-functional-guards/src/lib/chain.guard.ts:62 | Guard `j` is called, and its value observed, exactly when `j` is within the consumed prefix. Later guards are never called. Every call gets the captured injector and the composed call's arguments |
| ChainGuard.ChainTrueIff | libs/ngx-chain-functional-guards/src/lib/chain.guard.ts:14-18 | The outcome is `true` exactly when there is at least one guard and every guard's first value is exactly `true` |
| ChainGuard.ChainStopValue | libs/ngx-chain-functional-guards/src/lib/chain.guard.ts:62-63 | Any other value (`False` or a redirect) is, unchanged, the first value of some guard whose predecessors were all `true` |
| ChainGuard.ChainEmpty | libs/ngx-chain-functional-guards/src/lib/chain.guard.ts:57-63 | With no guards the injector is read, no guard is called, and `last()` raises EmptyError |
| ChainGuard.ChainUsesFirstValuesOnly | libs/ngx-chain-functional-guards/src/lib/chain.guard.ts:60 | Guards that agree on their first values give identical outcomes and traces, whatever shape they return and whatever they emit later |
| ChainGuard.ChainActivationGuards | libs/ngx-chain-functional-guards/src/lib/chain.guard.ts:45-66 | The activation entry point decides by the reference rule over the flattened guards. Every call receives the captured injector and exactly `route` and `state` |
| ChainGuard.ChainDeactivationGuards | libs/ngx-chain-functional-guards/src/lib/chain.guard.ts:81-109 | The deactivation entry point decides by the same rule. Every call receives the captured injector and exactly `component`, `route`, `state` and `nextState` |
| ParallelizeGuard.Parallelize | libs/ngx-chain-functional-guards/src/lib/parallelize.guard.ts:16-34 | The trace is empty, meaning no injector read and no guard call, exactly when there are no guards. In that case the outcome is `true` |
| ParallelizeGuard.ArrivalEvents | libs/ngx-chain-functional-guards/src/lib/parallelize.guard.ts:30-32 | The observed part of the trace lists, in position `q`, the settlement of the guard that arrived `q`-th |
| ParallelizeGuard.MergeFrom | libs/ngx-chain-functional-guards/src/lib/parallelize.guard.ts:25-33 | The merged stream from the `j`-th arrival on, observing each first value as it arrives and no longer listening after the first non-true one. It carries no contract of its own; `MergeFromSpec` characterises it |
| ParallelizeGuard.MergeFromSpec | libs/ngx-chain-functional-guards/src/lib/parallelize.guard.ts:30-33 | From any arrival on, the merged stream observes exactly the arrivals up to and including the first non-true one. `last()` yields the reference rule's value over the arrival order |
| ParallelizeGuard.MergeDecides | libs/ngx-chain-functional-guards/src/lib/parallelize.guard.ts:25-33 | With at least one guard, `last()` of the merged stream is the reference rule over the arrivals, and exactly the consumed arrivals are observed |
| ParallelizeGuard.MergeIgnoresLate | libs/ngx-chain-functional-guards/src/lib/parallelize.guard.ts:31 | Two merged streams that agree on every arrival up to and including the first non-true one, in which guard arrives and with what value, observe the same events and end with the same `last()` |
| ParallelizeGuard.ParallelizeDecides | libs/ngx-chain-functional-guards/src/lib/parallelize.guard.ts:9-14 | With guards, the outcome is the first non-true value in completion order, or `true` |
| ParallelizeGuard.ParallelizeTrace | libs/ngx-chain-functional-guards/src/lib/parallelize.guard.ts:23-32 | With guards, the injector is read first. All guards are then called in declared order with the same injector and arguments, before any value is observed. Values are then observed in arrival order, up to the first non-true one |
| ParallelizeGuard.ParallelizeCallsEveryGuard | libs/ngx-chain-functional-guards/src/lib/parallelize.guard.ts:26-29 | Every guard is called. No call has an index out of range, and every call gets exactly the captured injector and the composed call's arguments |
| ParallelizeGuard.ParallelizeObserves | libs/ngx-chain-functional-guards/src/lib/parallelize.guard.ts:30-33 | The `j`-th arrival's value is observed exactly when `j` is within the consumed prefix of the arrival order |
| ParallelizeGuard.ArrivalsAllContinue | libs/ngx-chain-functional-guards/src/lib/parallelize.guard.ts:31-32 | Every arrival is `true` exactly when every guard's value is `true`, because the completion order is a permutation |
| ParallelizeGuard.ParallelizeTrueIff | libs/ngx-chain-functional-guards/src/lib/parallelize.guard.ts:31-32 | The outcome is `true` exactly when every guard's first value is `true`, for any completion order. A `true` outcome implies every guard's value was observed |
| ParallelizeGuard.ParallelizeAllTrueAnyOrder | libs/ngx-chain-functional-guards/src/lib/parallelize.guard.ts:14 | When all guards are `true`, any two completion orders give the same outcome, `true` |
| ParallelizeGuard.ParallelizeOutcomeIsGuardValue | libs/ngx-chain-functional-guards/src/lib/parallelize.guard.ts:14 | A non-true outcome is, unchanged, the value of the first guard to arrive with a non-true value. All earlier arrivals are `true` |
| ParallelizeGuard.ParallelizeIgnoresLateArrivals | libs/ngx-chain-functional-guards/src/lib/parallelize.guard.ts:31 | Guards may settle differently after the first non-true arrival. They still give the same outcome and the same trace |
| ParallelizeGuard.ParallelizeIgnoresLateOrder | libs/ngx-chain-functional-guards/src/lib/parallelize.guard.ts:31 | Two completion orders that agree up to and including the first non-true arrival give the same outcome and the same trace. How the later guards are ordered does not matter |
| ParallelizeGuard.ParallelizeUsesFirstValuesOnly | libs/ngx-chain-functional-guards/src/lib/parallelize.guard.ts:28 | Guards that agree on their first values give identical outcomes and traces, whatever shape they return |
| ParallelizeGuard.ShapesGiveSameRun | libs/ngx-chain-functional-guards/src/lib/parallelize.guard.spec.ts:45-71 | Suppose each guard yields the same value in both lists, either synchronously, as a promise, or as an observable's first emission (later emissions ignored). Then the chain gives the same run for both lists, and so does the parallel combinator for any completion order |
| ParallelizeGuard.DeclaredOrderMatchesChain | libs/ngx-chain-functional-guards/src/lib/parallelize.guard.ts:9-21 | When guards complete in declared order, the outcome equals the sequential chain's outcome, and both observe exactly the same guards. With no guards this combinator gives `true` and the chain gives EmptyError |
| ParallelizeGuard.AsRaw | libs/ngx-chain-functional-guards/src/lib/parallelize.guard.ts:30-33 | The observable a composed guard returns gives, under `first()`, the composed outcome back: its value, or `NoValue` for EmptyError |
| ParallelizeGuard.GroupRunsAfterPre | libs/ngx-chain-functional-guards/src/lib/parallelize.guard.ts:10-11 | A parallel group placed after higher priority guards in a chain is called exactly when every one of them settled to `true`, and then the chain's outcome is the group's outcome |
| ParallelizeGuard.ParallelizeActivationGuards | libs/ngx-chain-functional-guards/src/lib/parallelize.guard.ts:16-34 | With no guards the entry point gives `true` at once, with an empty trace: no injector read and no guard call. Otherwise it decides by the reference rule over the arrival order. It calls every guard, each with the captured injector and exactly `route` and `state` |

## Left out

- Angular dependency injection (`inject(EnvironmentInjector)`, `runInInjectionContext`) is plumbing. The injector is an opaque `Injector` value passed explicitly. Reading it is the `ContextCaptured` event, and each guard call records the injector it ran in.
- `wrapIntoObservable` (`./utils/rxjs.utils`) is not part of this model. `First` stands for it followed by `first()`. A promise is represented by the value it settles to, and an observable by the values it emits.
- Rejected promises, erroring observables and guards that throw synchronously when called are runtime failures. They are not modelled. The only error modelled is EmptyError from `first()` or `last()`. A guard that throws would end the parallel combinator before it returns an observable, since the throw escapes `guards.map` (`parallelize.guard.ts:26-27`) and later guards are never called. In the chain it would error the `concatMap` stream (`chain.guard.ts:58-59`). So `ParallelizeCallsEveryGuard` and `ParallelizeTrace` ("every guard is called") hold only for guards that return normally.
- The guard list is an immutable value. The deprecated array form keeps a reference to the caller's array and reads `guards[0]` again on every run (`chain.guard.ts:52-54`, `93-95`), while the rest form holds its own copy. Mutating that array after composing would change later runs of the array form only. `FlattenForms` and `CallFormsAgree` compare both forms over one unchanging list.
- Every guard is assumed to settle: a promise always resolves, and an observable always emits or completes. A guard that never settles would stall the chain for good at `concatMap`. It would also stall the parallel combinator unless a stop value arrives first. The model cannot express such a guard. A slow straggler is covered only by placing it after the first stopping arrival in the completion order (`ParallelizeIgnoresLateArrivals`, `ParallelizeIgnoresLateOrder`).
- Wall-clock timing and latency (the parallel combinator finishing in about the slowest guard's time, not the sum) needs real timers. The effect of timing is captured only as the completion-order input.
- Cancellation and unsubscription of guards still in flight are not modelled, including suppression of their late failures. The model only shows that later arrivals are not observed and do not affect the result.
- Side effects between guards are not modelled. This includes a guard that waits for other guards' effects (`parallelize.guard.spec.ts:158-203`). Guards are pure functions of their arguments, so a guard's value does not depend on which other guards ran.
- The TypeScript overload signatures and deprecation notes add no behaviour beyond the flattening rule. `CanActivateChildFn` has the same arguments as `CanActivateFn`, so `ActivationArgs` covers both. Argument lists mixing arrays and functions are outside the implementation signature and are excluded by `WellTyped`.
- Nesting is modelled only for a parallel group placed inside a chain (`Group`, `GroupRunsAfterPre`). The group's own injector read and guard calls are not part of the outer trace: the chain records the group as one call and one settlement.
- `test-setup.ts` creates a test injector. It is not part of this model.

=== FILE: chain_guard.dfy ===
/**
 `chainActivationGuards` and `chainDeactivationGuards`: the guards are called
 one at a time, in declared order (`from(...).pipe(concatMap(...))`), each
 guard's first value is taken, evaluation goes on while the value is exactly
 `true` and stops after the first other value, and the last value seen is the
 outcome. Both entry points share one generic chain over the guard argument
 type, since they differ only in the arguments forwarded to each guard.
 */
module ChainGuard {
  import opened GuardResults
  import opened ShortCircuit

  /** One argument of the entry points: a guard, or the deprecated single array of guards. */
  datatype GuardArg<!A> = Fn(guard: Guard<A>) | Array(guards: seq<Guard<A>>)

  /** The implementation signature's argument types: a single array, or guards passed individually. */
  predicate WellTyped<A>(gargs: seq<GuardArg<A>>)
  {
    (|gargs| == 1 && gargs[0].Array?) || forall i :: 0 <= i < |gargs| ==> gargs[i].Fn?
  }

  /** Guards passed individually, as the rest-parameter signature receives them. */
  function Spread<A>(guards: seq<Guard<A>>): (gargs: seq<GuardArg<A>>)
    ensures WellTyped(gargs)
  {
    seq(|guards|, i requires 0 <= i < |guards| => Fn(guards[i]))
  }

  /** The shared flattening: a single array argument is unwrapped, otherwise the rest list is used. */
  function Flatten<A>(gargs: seq<GuardArg<A>>): (fs: seq<Guard<A>>)
    requires WellTyped(gargs)
    ensures |gargs| == 1 && gargs[0].Array? ==> gargs == [Array(fs)]
    ensures !(|gargs| == 1 && gargs[0].Array?) ==> gargs == Spread(fs)
  {
    if |gargs| == 1 && gargs[0].Array? then gargs[0].guards
    else seq(|gargs|, i requires 0 <= i < |gargs| && gargs[i].Fn? => gargs[i].guard)
  }

  /** Both call shapes flatten to the same ordered guard list. */
  lemma FlattenForms<A>(guards: seq<Guard<A>>)
    ensures Flatten([Array(guards)]) == guards
    ensures Flatten(Spread(guards)) == guards
  {
    var spread := Spread(guards);
    if |spread| == 1 {
      assert !spread[0].Array?;
    }
  }

  /**
   The chain from guard `i` on: guard `i` is called only now, after every earlier
   guard has settled to `true`; the stream stops after the first other value,
   so no later guard is called. Only the last value passed on can be other
   than `true`, and each value, or the error that ends the stream, comes from
   one call directly followed by its settlement.
   */
  function ChainFrom<A>(guards: seq<Guard<A>>, ctx: Injector, args: A, i: nat): (p: Pipeline<A>)
    requires i <= |guards|
    decreases |guards| - i
  {
    if i == |guards| then Pipeline(Emission([], Completed), [])
    else
      var s := First(guards[i](ctx, args));
      var step := [Invoked(i, ctx, args), Settled(i, s)];
      match s
      case NoValue => Pipeline(Emission([], Errored), step)
      case Value(v) =>
        if v.True? then
          var rest := ChainFrom(guards, ctx, args, i + 1);
          Pipeline(Emission([v] + rest.emitted.values, rest.emitted.end), step + rest.trace)
        else
          Pipeline(Emission([v], Completed), step)
  }

  /**
   The composed guard: read the injector once, then run the chain with it. Its
   outcome is the reference rule over the guards' first values in declared
   order, and its trace is the injector read followed by a call and a
   settlement per guard, up to and including the first non-true one.
   */
  function Chain<A>(guards: seq<Guard<A>>, ctx: Injector, args: A): (r: Run<A>)
    ensures r.outcome == Decide(Settlements(guards, ctx, args))
    ensures var ss := Settlements(guards, ctx, args);
            r.trace == [ContextCaptured(ctx)] + CallPairs(ss, ctx, args, 0, Consumed(ss))
  {
    ChainFromSpec(guards, ctx, args, 0);
    var p := ChainFrom(guards, ctx, args, 0);
    Run(Last(p.emitted), [ContextCaptured(ctx)] + p.trace)
  }

  /**
   The trace of a chain that calls guards `i` up to `m`: a call of each guard
   directly followed by its settlement, guard by guard, so the call of guard
   `j` sits at offset `2 * (j - i)` and its settlement right after it.
   */
  function CallPairs<A>(ss: seq<Settlement>, ctx: Injector, args: A, i: nat, m: nat): (t: seq<Event<A>>)
    requires i <= m <= |ss|
    ensures |t| == 2 * (m - i)
    ensures forall q :: 0 <= q < |t| ==>
      t[q] == (if q % 2 == 0 then Invoked(i + q / 2, ctx, args) else Settled(i + q / 2, ss[i + q / 2]))
    decreases m - i
  {
    if i == m then []
    else [Invoked(i, ctx, args), Settled(i, ss[i])] + CallPairs(ss, ctx, args, i + 1, m)
  }

  /**
   Sequential calls: exactly guards `i` up to `m` are called, each with `ctx`
   and `args`, and exactly their values are observed, guard by guard in order.
   */
  lemma CallPairsOrder<A>(ss: seq<Settlement>, ctx: Injector, args: A, i: nat, m: nat)
    requires i <= m <= |ss|
    ensures forall j :: i <= j < m ==> Invoked(j, ctx, args) in CallPairs(ss, ctx, args, i, m)
    ensures forall j :: i <= j < m ==> Settled(j, ss[j]) in CallPairs(ss, ctx, args, i, m)
    ensures forall e :: e in CallPairs(ss, ctx, args, i, m) && e.Settled? ==> i <= e.index < m
    ensures forall e :: e in CallPairs(ss, ctx, args, i, m) && e.Invoked? ==>
      i <= e.index < m && e.ctx == ctx && e.args == args
    ensures forall q, q' :: 0 <= q < q' < |CallPairs(ss, ctx, args, i, m)| ==>
      CallPairs(ss, ctx, args, i, m)[q].index <= CallPairs(ss, ctx, args, i, m)[q'].index
  {
    var t := CallPairs(ss, ctx, args, i, m);
    forall j | i <= j < m
      ensures Invoked(j, ctx, args) in t && Settled(j, ss[j]) in t
    {
      assert t[2 * (j - i)] == Invoked(j, ctx, args);
      assert t[2 * (j - i) + 1] == Settled(j, ss[j]);
    }
  }

  /**
   The chain from guard `i` on calls exactly the guards up to and including the
   first stopping one, and its stream ends as the reference rule says.
   */
  lemma {:induction false} ChainFromSpec<A>(guards: seq<Guard<A>>, ctx: Injector, args: A, i: nat)
    requires i <= |guards|
    ensures var ss := Settlements(guards, ctx, args);
            var k := StopFrom(ss, i);
            var p := ChainFrom(guards, ctx, args, i);
            && p.trace == CallPairs(ss, ctx, args, i, if k < |ss| then k + 1 else |ss|)
            && (p.emitted.end.Errored? <==> k < |ss| && ss[k].NoValue?)
            && (p.emitted.end.Completed? && |p.emitted.values| == 0 ==> i == |guards|)
            && Last(p.emitted) ==
               (if k < |ss| then (if ss[k].Value? then Decided(ss[k].value) else EmptyError)
                else if i == |ss| then EmptyError else Decided(True))
    decreases |guards| - i
  {
    var ss := Settlements(guards, ctx, args);
    if i < |guards| {
      assert ss[i] == First(guards[i](ctx, args));
      var pair := [Invoked(i, ctx, args), Settled(i, ss[i])];
      if Continues(ss[i]) {
        var k := StopFrom(ss, i + 1);
        assert StopFrom(ss, i) == k;
        ChainFromSpec(guards, ctx, args, i + 1);
        var m := if k < |ss| then k + 1 else |ss|;
        assert CallPairs(ss, ctx, args, i, m) == pair + CallPairs(ss, ctx, args, i + 1, m);
      } else {
        assert StopFrom(ss, i) == i;
        assert CallPairs(ss, ctx, args, i, i + 1) == pair;
      }
    }
  }

  /**
   Short-circuit: the guards called are exactly those up to and including the
   first whose value is not exactly `true`, each with the injector read at call
   time and the composed guard's own arguments, in declared order; later guards
   are never called.
   */
  lemma ChainShortCircuit<A>(guards: seq<Guard<A>>, ctx: Injector, args: A)
    ensures var ss := Settlements(guards, ctx, args);
            var r := Chain(guards, ctx, args);
            && (forall j :: 0 <= j < |guards| ==> (Invoked(j, ctx, args) in r.trace <==> j < Consumed(ss)))
            && (forall j :: 0 <= j < |guards| ==> (Settled(j, ss[j]) in r.trace <==> j < Consumed(ss)))
            && (forall e :: e in r.trace && e.Invoked? ==> e.ctx == ctx && e.args == args)
            && (forall j :: 0 <= j < Consumed(ss) - 1 ==> ss[j] == Value(True))
            && (Consumed(ss) < |guards| ==> !Continues(ss[Consumed(ss) - 1]))
  {
    var ss := Settlements(guards, ctx, args);
    var m := Consumed(ss);
    CallPairsOrder(ss, ctx, args, 0, m);
    var r := Chain(guards, ctx, args);
    assert r.trace == [ContextCaptured(ctx)] + CallPairs(ss, ctx, args, 0, m);
    forall e | e in r.trace && !e.ContextCaptured?
      ensures e in CallPairs(ss, ctx, args, 0, m)
    {
    }
  }

  /** The chain's outcome is `true` exactly when there are guards and every one settles to exactly `true`. */
  lemma ChainTrueIff<A>(guards: seq<Guard<A>>, ctx: Injector, args: A)
    ensures Chain(guards, ctx, args).outcome == Decided(True) <==>
      |guards| > 0 && forall j :: 0 <= j < |guards| ==> First(guards[j](ctx, args)) == Value(True)
  {
    var ss := Settlements(guards, ctx, args);
    DecideTrueIff(ss);
    assert forall j :: 0 <= j < |guards| ==> ss[j] == First(guards[j](ctx, args));
  }

  /**
   Otherwise the outcome is the first non-true value in declared order,
   unchanged: `False` or the redirect, with every earlier guard `true`.
   */
  lemma ChainStopValue<A>(guards: seq<Guard<A>>, ctx: Injector, args: A, v: GuardResult)
    requires Chain(guards, ctx, args).outcome == Decided(v) && !v.True?
    ensures exists k :: && 0 <= k < |guards|
                        && First(guards[k](ctx, args)) == Value(v)
                        && forall j :: 0 <= j < k ==> First(guards[j](ctx, args)) == Value(True)
  {
    var ss := Settlements(guards, ctx, args);
    DecideStopIsFirst(ss, v);
    var k := StopFrom(ss, 0);
    assert forall j :: 0 <= j < |guards| ==> ss[j] == First(guards[j](ctx, args));
    assert First(guards[k](ctx, args)) == Value(v);
  }

  /** With no guards the stream completes empty, so `last()` raises EmptyError; the injector is still read. */
  lemma ChainEmpty<A>(ctx: Injector, args: A)
    ensures Chain([], ctx, args) == Run(EmptyError, [ContextCaptured(ctx)])
  {
  }

  /**
   Only each guard's first value matters: guards that agree on their first
   values, whatever shape they return them in and whatever they emit later,
   give the same outcome and the same trace.
   */
  lemma ChainUsesFirstValuesOnly<A>(guards: seq<Guard<A>>, guards': seq<Guard<A>>, ctx: Injector, args: A)
    requires |guards'| == |guards|
    requires forall j :: 0 <= j < |guards| ==> First(guards'[j](ctx, args)) == First(guards[j](ctx, args))
    ensures Chain(guards', ctx, args) == Chain(guards, ctx, args)
  {
    var ss := Settlements(guards, ctx, args);
    assert Settlements(guards', ctx, args) == ss;
  }

  /** `chainActivationGuards(...)` called by the router with `route` and `state` while `ctx` is active. */
  function ChainActivationGuards(gargs: seq<GuardArg<ActivationArgs>>, ctx: Injector,
                                 route: RouteSnapshot, state: RouterState): (r: Run<ActivationArgs>)
    requires WellTyped(gargs)
    ensures r.outcome == Decide(Settlements(Flatten(gargs), ctx, ActivationArgs(route, state)))
    ensures forall e :: e in r.trace && e.Invoked? ==> e.ctx == ctx && e.args == ActivationArgs(route, state)
  {
    var args := ActivationArgs(route, state);
    ChainShortCircuit(Flatten(gargs), ctx, args);
    Chain(Flatten(gargs), ctx, args)
  }

  /**
   `chainDeactivationGuards(...)` called by the router with the outgoing
   component, `route`, `state` and `nextState` while `ctx` is active; all four
   reach every guard called, unchanged.
   */
  function ChainDeactivationGuards(gargs: seq<GuardArg<DeactivationArgs>>, ctx: Injector, component: Component,
                                   route: RouteSnapshot, state: RouterState, nextState: RouterState)
    : (r: Run<DeactivationArgs>)
    requires WellTyped(gargs)
    ensures r.outcome == Decide(Settlements(Flatten(gargs), ctx, DeactivationArgs(component, route, state, nextState)))
    ensures forall e :: e in r.trace && e.Invoked? ==>
      e.ctx == ctx && e.args == DeactivationArgs(component, route, state, nextState)
  {
    var args := DeactivationArgs(component, route, state, nextState);
    ChainShortCircuit(Flatten(gargs), ctx, args);
    Chain(Flatten(gargs), ctx, args)
  }

  /** The deprecated array form and the rest-parameter form behave identically, for both entry points. */
  lemma CallFormsAgree(activation: seq<Guard<ActivationArgs>>, deactivation: seq<Guard<DeactivationArgs>>,
                       ctx: Injector, component: Component,
                       route: RouteSnapshot, state: RouterState, nextState: RouterState)
    ensures ChainActivationGuards([Array(activation)], ctx, route, state)
         == ChainActivationGuards(Spread(activation), ctx, route, state)
    ensures ChainDeactivationGuards([Array(deactivation)], ctx, component, route, state, nextState)
         == ChainDeactivationGuards(Spread(deactivation), ctx, component, route, state, nextState)
  {
    FlattenForms(activation);
    FlattenForms(deactivation);
  }
}

=== FILE: guard_results.dfy ===
/**
 This module holds the values the guard combinators work with: the router's
 normalised guard result, the three shapes a guard callback may return before
 normalisation, what rxjs `first()` makes of each shape, and the events a
 composed guard produces while it runs.
 */
module GuardResults {

  /** A redirect target; the router's `UrlTree`, kept opaque. */
  datatype UrlTree = UrlTree(path: string)

  /** A guard's normalised value. Only `True` lets evaluation continue. */
  datatype GuardResult = True | False | Redirect(target: UrlTree)

  /**
   What a guard callback returns. A promise is modelled by the value it settles
   to, an observable by the values it emits before it completes.
   */
  datatype RawResult =
    | Immediate(value: GuardResult)
    | Deferred(value: GuardResult)
    | Stream(emissions: seq<GuardResult>)

  /**
   A guard's result after `wrapIntoObservable(...).pipe(first())`: its first
   value, or `NoValue` when the observable completes without emitting, which
   makes `first()` raise rxjs's EmptyError.
   */
  datatype Settlement = Value(value: GuardResult) | NoValue

  /** The single value of a composed guard, or the EmptyError raised by `first()` or `last()`. */
  datatype Outcome = Decided(value: GuardResult) | EmptyError

  /** The environment injector a guard runs in (Angular DI, kept opaque). */
  datatype Injector = Injector(id: nat)

  datatype RouteSnapshot = RouteSnapshot(url: string)
  datatype RouterState = RouterState(url: string)
  datatype Component = Component(name: string)

  /** Arguments of `CanActivateFn` / `CanActivateChildFn`. */
  datatype ActivationArgs = ActivationArgs(route: RouteSnapshot, state: RouterState)

  /** Arguments of `CanDeactivateFn`. */
  datatype DeactivationArgs =
    DeactivationArgs(component: Component, route: RouteSnapshot, state: RouterState, nextState: RouterState)

  /** A guard callback taking arguments `A`, called inside an injection context. */
  type Guard<!A> = (Injector, A) -> RawResult

  /**
   What a composed guard does, in order: read the ambient injector, call guard
   `index` inside it with the given arguments, observe guard `index`'s first value.
   */
  datatype Event<A> =
    | ContextCaptured(ctx: Injector)
    | Invoked(index: nat, ctx: Injector, args: A)
    | Settled(index: nat, settlement: Settlement)

  /** The outcome of a composed guard together with the events leading to it. */
  datatype Run<A> = Run(outcome: Outcome, trace: seq<Event<A>>)

  /** The values `wrapIntoObservable(raw)` emits before it completes: one for a plain value or a promise. */
  function Emitted(raw: RawResult): seq<GuardResult>
  {
    match raw
    case Immediate(v) => [v]
    case Deferred(v) => [v]
    case Stream(vs) => vs
  }

  /** `wrapIntoObservable(raw).pipe(first())`: only the first value is ever used. */
  function First(raw: RawResult): (s: Settlement)
    ensures s == NoValue <==> |Emitted(raw)| == 0
    ensures s.Value? ==> s.value == Emitted(raw)[0]
  {
    match raw
    case Immediate(v) => Value(v)
    case Deferred(v) => Value(v)
    case Stream(vs) => if |vs| == 0 then NoValue else Value(vs[0])
  }

  /** What every guard would settle to if it were called with `ctx` and `args`. */
  function Settlements<A>(guards: seq<Guard<A>>, ctx: Injector, args: A): (ss: seq<Settlement>)
    ensures |ss| == |guards|
  {
    seq(|guards|, i requires 0 <= i < |guards| => First(guards[i](ctx, args)))
  }

  /**
   `raw` produces `v` as its first value: returned synchronously, as the value
   a promise settles to, or as an observable's first emission (later emissions
   are ignored). This is exactly what `First` normalises to `Value(v)`.
   */
  predicate Yields(raw: RawResult, v: GuardResult)
  {
    First(raw) == Value(v)
  }
}

=== FILE: parallelize_guard.dfy ===
/**
 `parallelizeActivationGuards`: with no guards the outcome is `true` at once.
 Otherwise the injector is read, every guard is called straight away in
 declared order, and their first values are merged in the order they complete;
 the merged stream goes through the same `takeWhile`/`last()` rule as the chain.
 The completion order depends on each guard's latency, so here it is an input:
 a permutation of the guard indices.
 */
module ParallelizeGuard {
  import opened GuardResults
  import opened ShortCircuit
  import ChainGuard

  /** `order[j]` is the guard whose value is the `j`-th to arrive: a permutation of `0 .. n - 1`. */
  predicate IsArrivalOrder(order: seq<nat>, n: nat)
  {
    && |order| == n
    && (forall j :: 0 <= j < n ==> order[j] < n)
    && (forall g :: 0 <= g < n ==> g in order)
    && (forall j, j' :: 0 <= j < j' < n ==> order[j] != order[j'])
  }

  /** Completion in declared order. */
  function DeclaredOrder(n: nat): (order: seq<nat>)
    ensures IsArrivalOrder(order, n)
  {
    var order := seq(n, j requires 0 <= j < n => j as nat);
    forall g | 0 <= g < n
      ensures g in order
    {
      assert order[g] == g;
    }
    order
  }

  /** The guards' first values in arrival order. */
  function Arrivals(ss: seq<Settlement>, order: seq<nat>): (arr: seq<Settlement>)
    requires IsArrivalOrder(order, |ss|)
    ensures |arr| == |ss|
  {
    seq(|order|, j requires 0 <= j < |order| => ss[order[j]])
  }

  /** Every guard called at once, in declared order, with the same injector and arguments. */
  function Invocations<A>(ctx: Injector, args: A, n: nat): seq<Event<A>>
  {
    seq(n, i requires 0 <= i < n => Invoked(i, ctx, args))
  }

  /**
   The merged stream from the `j`-th arrival on: each value is observed as it
   arrives; the stream stops after the first value that is not exactly `true`,
   and later arrivals are no longer listened to. Only the last value passed on
   can be other than `true`, and each value, or the error that ends the
   stream, is one observed settlement.
   */
  function MergeFrom<A>(ss: seq<Settlement>, order: seq<nat>, j: nat): (p: Pipeline<A>)
    requires IsArrivalOrder(order, |ss|) && j <= |order|
    decreases |order| - j
  {
    if j == |order| then Pipeline(Emission([], Completed), [])
    else
      var s := ss[order[j]];
      var step := [Settled(order[j], s)];
      match s
      case NoValue => Pipeline(Emission([], Errored), step)
      case Value(v) =>
        if v.True? then
          var rest := MergeFrom<A>(ss, order, j + 1);
          Pipeline(Emission([v] + rest.emitted.values, rest.emitted.end), step + rest.trace)
        else
          Pipeline(Emission([v], Completed), step)
  }

  /** The composed guard, for a given completion order. */
  function Parallelize<A>(guards: seq<Guard<A>>, ctx: Injector, args: A, order: seq<nat>): (r: Run<A>)
    requires IsArrivalOrder(order, |guards|)
    ensures r.trace == [] <==> |guards| == 0
    ensures |guards| == 0 ==> r.outcome == Decided(True)
  {
    if |guards| == 0 then Run(Decided(True), [])
    else
      var p := MergeFrom<A>(Settlements(guards, ctx, args), order, 0);
      Run(Last(p.emitted), [ContextCaptured(ctx)] + Invocations(ctx, args, |guards|) + p.trace)
  }

  /** The settlements observed from the `j`-th arrival up to the `m`-th, in arrival order. */
  function ArrivalEvents<A>(ss: seq<Settlement>, order: seq<nat>, j: nat, m: nat): (t: seq<Event<A>>)
    requires IsArrivalOrder(order, |ss|) && j <= m <= |order|
    ensures |t| == m - j
    ensures forall q :: 0 <= q < |t| ==> t[q] == Settled(order[j + q], ss[order[j + q]])
    decreases m - j
  {
    if j == m then [] else [Settled(order[j], ss[order[j]])] + ArrivalEvents<A>(ss, order, j + 1, m)
  }

  /**
   The merged stream from the `j`-th arrival on observes exactly the arrivals up
   to and including the first stopping one, and ends as the reference rule says.
   */
  lemma {:induction false} MergeFromSpec<A>(ss: seq<Settlement>, order: seq<nat>, j: nat)
    requires IsArrivalOrder(order, |ss|) && j <= |order|
    ensures var arr := Arrivals(ss, order);
            var k := StopFrom(arr, j);
            var p := MergeFrom<A>(ss, order, j);
            && p.trace == ArrivalEvents<A>(ss, order, j, if k < |arr| then k + 1 else |arr|)
            && (p.emitted.end.Errored? <==> k < |arr| && arr[k].NoValue?)
            && (p.emitted.end.Completed? && |p.emitted.values| == 0 ==> j == |order|)
            && Last(p.emitted) ==
               (if k < |arr| then (if arr[k].Value? then Decided(arr[k].value) else EmptyError)
                else if j == |arr| then EmptyError else Decided(True))
    decreases |order| - j
  {
    var arr := Arrivals(ss, order);
    if j < |order| {
      assert arr[j] == ss[order[j]];
      if Continues(arr[j]) {
        MergeFromSpec<A>(ss, order, j + 1);
      }
    }
  }

  /**
   The whole merged stream, for at least one guard: `last()` gives the reference
   rule over the arrivals, after observing exactly the consumed arrivals.
   */
  lemma MergeDecides<A>(ss: seq<Settlement>, order: seq<nat>)
    requires IsArrivalOrder(order, |ss|) && |ss| > 0
    ensures Last(MergeFrom<A>(ss, order, 0).emitted) == Decide(Arrivals(ss, order))
    ensures MergeFrom<A>(ss, order, 0).trace == ArrivalEvents<A>(ss, order, 0, Consumed(Arrivals(ss, order)))
  {
    MergeFromSpec<A>(ss, order, 0);
  }

  /** Settlements observed through two orders that agree on the first `m` arrivals are the same events. */
  lemma ArrivalEventsAgree<A>(ss: seq<Settlement>, order: seq<nat>, ss': seq<Settlement>, order': seq<nat>, m: nat)
    requires IsArrivalOrder(order, |ss|) && IsArrivalOrder(order', |ss'|) && m <= |order| && m <= |order'|
    requires forall j :: 0 <= j < m ==> order'[j] == order[j] && ss'[order'[j]] == ss[order[j]]
    ensures ArrivalEvents<A>(ss', order', 0, m) == ArrivalEvents<A>(ss, order, 0, m)
  {
    var t := ArrivalEvents<A>(ss, order, 0, m);
    var t' := ArrivalEvents<A>(ss', order', 0, m);
    forall q | 0 <= q < m
      ensures t'[q] == t[q]
    {
    }
  }

  /** With guards, the outcome is the reference rule applied to their first values in arrival order. */
  lemma ParallelizeDecides<A>(guards: seq<Guard<A>>, ctx: Injector, args: A, order: seq<nat>)
    requires IsArrivalOrder(order, |guards|) && |guards| > 0
    ensures Parallelize(guards, ctx, args, order).outcome == Decide(Arrivals(Settlements(guards, ctx, args), order))
  {
    MergeDecides<A>(Settlements(guards, ctx, args), order);
  }

  /**
   With guards, the injector is read, then all guards are called in declared
   order with the same injector and arguments before any value is observed, and
   then the values are observed in arrival order up to the first non-true one.
   */
  lemma ParallelizeTrace<A>(guards: seq<Guard<A>>, ctx: Injector, args: A, order: seq<nat>)
    requires IsArrivalOrder(order, |guards|) && |guards| > 0
    ensures var ss := Settlements(guards, ctx, args);
            var m := Consumed(Arrivals(ss, order));
            var r := Parallelize(guards, ctx, args, order);
            && |r.trace| == 1 + |guards| + m
            && r.trace[0] == ContextCaptured(ctx)
            && (forall q :: 1 <= q <= |guards| ==> r.trace[q] == Invoked(q - 1, ctx, args))
            && (forall q :: 1 + |guards| <= q < |r.trace| ==>
                  r.trace[q] == Settled(order[q - 1 - |guards|], ss[order[q - 1 - |guards|]]))
  {
    var ss := Settlements(guards, ctx, args);
    var m := Consumed(Arrivals(ss, order));
    MergeFromSpec<A>(ss, order, 0);
    var r := Parallelize(guards, ctx, args, order);
    var inv := Invocations(ctx, args, |guards|);
    var arrived := ArrivalEvents<A>(ss, order, 0, m);
    assert r.trace == [ContextCaptured(ctx)] + inv + arrived;
    forall q | 1 + |guards| <= q < |r.trace|
      ensures r.trace[q] == Settled(order[q - 1 - |guards|], ss[order[q - 1 - |guards|]])
    {
      assert r.trace[q] == arrived[q - 1 - |guards|];
    }
  }

  /** Every guard is called, each exactly with the injector and arguments of the composed call. */
  lemma ParallelizeCallsEveryGuard<A>(guards: seq<Guard<A>>, ctx: Injector, args: A, order: seq<nat>)
    requires IsArrivalOrder(order, |guards|)
    ensures var r := Parallelize(guards, ctx, args, order);
            && (forall i :: 0 <= i < |guards| ==> Invoked(i, ctx, args) in r.trace)
            && (forall e :: e in r.trace && e.Invoked? ==> e.index < |guards| && e.ctx == ctx && e.args == args)
  {
    if |guards| > 0 {
      ParallelizeTrace(guards, ctx, args, order);
      var r := Parallelize(guards, ctx, args, order);
      forall i | 0 <= i < |guards|
        ensures Invoked(i, ctx, args) in r.trace
      {
        assert r.trace[i + 1] == Invoked(i, ctx, args);
      }
      forall e | e in r.trace && e.Invoked?
        ensures e.index < |guards| && e.ctx == ctx && e.args == args
      {
        var q :| 0 <= q < |r.trace| && r.trace[q] == e;
      }
    }
  }

  /** Arrivals hold the same values as the declared list, so "all true" does not depend on the order. */
  lemma ArrivalsAllContinue(ss: seq<Settlement>, order: seq<nat>)
    requires IsArrivalOrder(order, |ss|)
    ensures (forall j :: 0 <= j < |ss| ==> Continues(Arrivals(ss, order)[j])) <==>
            (forall g :: 0 <= g < |ss| ==> Continues(ss[g]))
  {
    var arr := Arrivals(ss, order);
    if forall j :: 0 <= j < |ss| ==> Continues(arr[j]) {
      forall g | 0 <= g < |ss|
        ensures Continues(ss[g])
      {
        assert g in order;
        var j :| 0 <= j < |order| && order[j] == g;
        assert arr[j] == ss[g];
      }
    }
  }

  /**
   The outcome is `true` exactly when every guard settles to exactly `true`
   (vacuously so with no guards), whatever the completion order; then every
   guard's value has been observed.
   */
  lemma ParallelizeTrueIff<A>(guards: seq<Guard<A>>, ctx: Injector, args: A, order: seq<nat>)
    requires IsArrivalOrder(order, |guards|)
    ensures var r := Parallelize(guards, ctx, args, order);
            && (r.outcome == Decided(True) <==>
                forall i :: 0 <= i < |guards| ==> First(guards[i](ctx, args)) == Value(True))
            && (r.outcome == Decided(True) ==> forall i :: 0 <= i < |guards| ==> Settled(i, Value(True)) in r.trace)
  {
    var ss := Settlements(guards, ctx, args);
    assert forall i :: 0 <= i < |guards| ==> ss[i] == First(guards[i](ctx, args));
    if |guards| > 0 {
      var arr := Arrivals(ss, order);
      var r := Parallelize(guards, ctx, args, order);
      ParallelizeDecides(guards, ctx, args, order);
      DecideTrueIff(arr);
      ArrivalsAllContinue(ss, order);
      if r.outcome == Decided(True) {
        ParallelizeTrace(guards, ctx, args, order);
        assert Consumed(arr) == |guards|;
        forall i | 0 <= i < |guards|
          ensures Settled(i, Value(True)) in r.trace
        {
          assert i in order;
          var j :| 0 <= j < |order| && order[j] == i;
          assert r.trace[1 + |guards| + j] == Settled(i, ss[i]);
        }
      }
    }
  }

  /** When every guard is `true`, any two completion orders give the same outcome, `true`. */
  lemma ParallelizeAllTrueAnyOrder<A>(guards: seq<Guard<A>>, ctx: Injector, args: A, order: seq<nat>, order': seq<nat>)
    requires IsArrivalOrder(order, |guards|) && IsArrivalOrder(order', |guards|)
    requires forall i :: 0 <= i < |guards| ==> First(guards[i](ctx, args)) == Value(True)
    ensures Parallelize(guards, ctx, args, order).outcome == Parallelize(guards, ctx, args, order').outcome
    ensures Parallelize(guards, ctx, args, order).outcome == Decided(True)
  {
    ParallelizeTrueIff(guards, ctx, args, order);
    ParallelizeTrueIff(guards, ctx, args, order');
  }

  /**
   The outcome is `true` or the unchanged value of one of the guards; a value
   other than `true` is the first such value to arrive.
   */
  lemma ParallelizeOutcomeIsGuardValue<A>(guards: seq<Guard<A>>, ctx: Injector, args: A, order: seq<nat>, v: GuardResult)
    requires IsArrivalOrder(order, |guards|)
    requires Parallelize(guards, ctx, args, order).outcome == Decided(v) && !v.True?
    ensures exists k :: && 0 <= k < |guards|
                        && First(guards[order[k]](ctx, args)) == Value(v)
                        && forall j :: 0 <= j < k ==> First(guards[order[j]](ctx, args)) == Value(True)
  {
    var ss := Settlements(guards, ctx, args);
    var arr := Arrivals(ss, order);
    ParallelizeDecides(guards, ctx, args, order);
    DecideStopIsFirst(arr, v);
    var k := StopFrom(arr, 0);
    assert forall j :: 0 <= j < |guards| ==> arr[j] == First(guards[order[j]](ctx, args));
    assert First(guards[order[k]](ctx, args)) == Value(v);
  }

  /**
   The merged stream stops listening after the first non-true arrival, so two
   runs that agree on every arrival up to it, in guard and in value, give the
   same observed events and the same `last()`.
   */
  lemma MergeIgnoresLate<A>(ss: seq<Settlement>, order: seq<nat>, ss': seq<Settlement>, order': seq<nat>)
    requires IsArrivalOrder(order, |ss|) && IsArrivalOrder(order', |ss'|) && |ss'| == |ss|
    requires Consumed(Arrivals(ss, order)) < |ss|
    requires forall j :: 0 <= j < Consumed(Arrivals(ss, order)) ==> order'[j] == order[j] && ss'[order'[j]] == ss[order[j]]
    ensures Last(MergeFrom<A>(ss', order', 0).emitted) == Last(MergeFrom<A>(ss, order, 0).emitted)
    ensures MergeFrom<A>(ss', order', 0).trace == MergeFrom<A>(ss, order, 0).trace
  {
    var arr := Arrivals(ss, order);
    var arr' := Arrivals(ss', order');
    var m := Consumed(arr);
    forall j | 0 <= j < m
      ensures arr'[j] == arr[j]
    {
      assert arr[j] == ss[order[j]] && arr'[j] == ss'[order'[j]];
    }
    DecideIgnoresRest(arr, arr');
    MergeDecides<A>(ss, order);
    MergeDecides<A>(ss', order');
    ArrivalEventsAgree<A>(ss, order, ss', order', m);
  }

  /**
   Late arrivals do not matter: guards whose values agree on every arrival up
   to and including the first non-true one give the same outcome and trace,
   whatever the later guards settle to.
   */
  lemma ParallelizeIgnoresLateArrivals<A>(guards: seq<Guard<A>>, guards': seq<Guard<A>>, ctx: Injector, args: A,
                                          order: seq<nat>)
    requires IsArrivalOrder(order, |guards|) && |guards'| == |guards|
    requires Consumed(Arrivals(Settlements(guards, ctx, args), order)) < |guards|
    requires forall j :: 0 <= j < Consumed(Arrivals(Settlements(guards, ctx, args), order)) ==>
      First(guards'[order[j]](ctx, args)) == First(guards[order[j]](ctx, args))
    ensures Parallelize(guards', ctx, args, order) == Parallelize(guards, ctx, args, order)
  {
    var ss := Settlements(guards, ctx, args);
    var ss' := Settlements(guards', ctx, args);
    forall j | 0 <= j < Consumed(Arrivals(ss, order))
      ensures ss'[order[j]] == ss[order[j]]
    {
    }
    MergeIgnoresLate<A>(ss, order, ss', order);
  }

  /**
   Only each guard's first value matters: guards that agree on their first
   values, whatever shape they return them in and whatever they emit later,
   give the same outcome and trace.
   */
  lemma ParallelizeUsesFirstValuesOnly<A>(guards: seq<Guard<A>>, guards': seq<Guard<A>>, ctx: Injector, args: A,
                                          order: seq<nat>)
    requires IsArrivalOrder(order, |guards|) && |guards'| == |guards|
    requires forall i :: 0 <= i < |guards| ==> First(guards'[i](ctx, args)) == First(guards[i](ctx, args))
    ensures Parallelize(guards', ctx, args, order) == Parallelize(guards, ctx, args, order)
  {
    assert Settlements(guards', ctx, args) == Settlements(guards, ctx, args);
  }

  /** The values observed are exactly those of the first arrivals, up to and including the first non-true one. */
  lemma ParallelizeObserves<A>(guards: seq<Guard<A>>, ctx: Injector, args: A, order: seq<nat>)
    requires IsArrivalOrder(order, |guards|)
    ensures var ss := Settlements(guards, ctx, args);
            var r := Parallelize(guards, ctx, args, order);
            forall j :: 0 <= j < |guards| ==>
              (Settled(order[j], ss[order[j]]) in r.trace <==> j < Consumed(Arrivals(ss, order)))
  {
    if |guards| > 0 {
      var ss := Settlements(guards, ctx, args);
      var m := Consumed(Arrivals(ss, order));
      ParallelizeTrace(guards, ctx, args, order);
      var r := Parallelize(guards, ctx, args, order);
      forall j | 0 <= j < |guards|
        ensures Settled(order[j], ss[order[j]]) in r.trace <==> j < m
      {
        if j < m {
          assert r.trace[1 + |guards| + j] == Settled(order[j], ss[order[j]]);
        }
        if Settled(order[j], ss[order[j]]) in r.trace {
          var q :| 0 <= q < |r.trace| && r.trace[q] == Settled(order[j], ss[order[j]]);
          assert order[q - 1 - |guards|] == order[j];
        }
      }
    }
  }

  /**
   When the guards complete in declared order, the outcome is the sequential
   chain's outcome, and both observe exactly the same guards' values. With no
   guards they differ: this combinator gives `true`, the chain EmptyError.
   */
  lemma DeclaredOrderMatchesChain<A>(guards: seq<Guard<A>>, ctx: Injector, args: A)
    ensures |guards| > 0 ==>
      Parallelize(guards, ctx, args, DeclaredOrder(|guards|)).outcome == ChainGuard.Chain(guards, ctx, args).outcome
    ensures forall i :: 0 <= i < |guards| ==>
      (Settled(i, Settlements(guards, ctx, args)[i]) in Parallelize(guards, ctx, args, DeclaredOrder(|guards|)).trace
       <==> Settled(i, Settlements(guards, ctx, args)[i]) in ChainGuard.Chain(guards, ctx, args).trace)
    ensures |guards| == 0 ==>
      Parallelize(guards, ctx, args, DeclaredOrder(0)).outcome == Decided(True) &&
      ChainGuard.Chain(guards, ctx, args).outcome == EmptyError
  {
    var ss := Settlements(guards, ctx, args);
    var order := DeclaredOrder(|guards|);
    assert Arrivals(ss, order) == ss;
    assert forall i :: 0 <= i < |guards| ==> order[i] == i;
    ChainGuard.ChainShortCircuit(guards, ctx, args);
    ParallelizeObserves(guards, ctx, args, order);
    if |guards| > 0 {
      ParallelizeDecides(guards, ctx, args, order);
    }
  }

  /**
   The order of arrivals after the first non-true one does not matter either:
   two completion orders that agree up to and including it give the same
   outcome and the same trace.
   */
  lemma ParallelizeIgnoresLateOrder<A>(guards: seq<Guard<A>>, ctx: Injector, args: A,
                                       order: seq<nat>, order': seq<nat>)
    requires IsArrivalOrder(order, |guards|) && IsArrivalOrder(order', |guards|)
    requires Consumed(Arrivals(Settlements(guards, ctx, args), order)) < |guards|
    requires forall j :: 0 <= j < Consumed(Arrivals(Settlements(guards, ctx, args), order)) ==> order'[j] == order[j]
    ensures Parallelize(guards, ctx, args, order') == Parallelize(guards, ctx, args, order)
  {
    var ss := Settlements(guards, ctx, args);
    MergeIgnoresLate<A>(ss, order, ss, order');
  }

  /**
   The result shape does not matter: guards that each yield the same value,
   whether synchronously, as a promise or as an observable's first emission,
   give the same run under both combinators.
   */
  lemma ShapesGiveSameRun<A>(guards: seq<Guard<A>>, guards': seq<Guard<A>>, ctx: Injector, args: A,
                             values: seq<GuardResult>, order: seq<nat>)
    requires |guards'| == |guards| == |values| && IsArrivalOrder(order, |guards|)
    requires forall j :: 0 <= j < |guards| ==>
      Yields(guards[j](ctx, args), values[j]) && Yields(guards'[j](ctx, args), values[j])
    ensures ChainGuard.Chain(guards', ctx, args) == ChainGuard.Chain(guards, ctx, args)
    ensures Parallelize(guards', ctx, args, order) == Parallelize(guards, ctx, args, order)
  {
    forall j | 0 <= j < |guards|
      ensures First(guards'[j](ctx, args)) == First(guards[j](ctx, args))
    {
      assert Yields(guards[j](ctx, args), values[j]);
    }
    ChainGuard.ChainUsesFirstValuesOnly(guards, guards', ctx, args);
    ParallelizeUsesFirstValuesOnly(guards, guards', ctx, args, order);
  }

  /**
   The observable a composed guard returns, as the guard that calls it sees
   it: its single value, or no value when `last()` raised EmptyError, so that
   `first()` over it raises the same EmptyError.
   */
  function AsRaw(o: Outcome): (raw: RawResult)
    ensures First(raw) == (if o.Decided? then Value(o.value) else NoValue)
  {
    match o
    case Decided(v) => Stream([v])
    case EmptyError => Stream([])
  }

  /** A parallel group used as one guard of another combinator; it runs in the injector it is called in. */
  function Group<A>(gs: seq<Guard<A>>, order: seq<nat>): Guard<A>
    requires IsArrivalOrder(order, |gs|)
  {
    (ctx: Injector, args: A) => AsRaw(Parallelize(gs, ctx, args, order).outcome)
  }

  /**
   A parallel group placed after higher priority guards in a chain is called
   only when every one of them settled to `true`, and then the chain's outcome
   is the group's own outcome.
   */
  lemma GroupRunsAfterPre<A>(pre: seq<Guard<A>>, gs: seq<Guard<A>>, order: seq<nat>, ctx: Injector, args: A)
    requires IsArrivalOrder(order, |gs|)
    ensures var r := ChainGuard.Chain(pre + [Group(gs, order)], ctx, args);
            && (Invoked(|pre|, ctx, args) in r.trace <==>
                forall j :: 0 <= j < |pre| ==> First(pre[j](ctx, args)) == Value(True))
            && ((forall j :: 0 <= j < |pre| ==> First(pre[j](ctx, args)) == Value(True)) ==>
                r.outcome == Parallelize(gs, ctx, args, order).outcome)
  {
    var guards := pre + [Group(gs, order)];
    var ss := Settlements(guards, ctx, args);
    var o := Parallelize(gs, ctx, args, order).outcome;
    assert ss[|pre|] == First(AsRaw(o));
    assert forall j :: 0 <= j < |pre| ==> ss[j] == First(pre[j](ctx, args));
    ChainGuard.ChainShortCircuit(guards, ctx, args);
    var k := StopFrom(ss, 0);
    if forall j :: 0 <= j < |pre| ==> Continues(ss[j]) {
      assert k >= |pre|;
    } else {
      var j :| 0 <= j < |pre| && !Continues(ss[j]);
      assert k <= j;
    }
  }

  /** `parallelizeActivationGuards(...guards)` called by the router with `route` and `state` while `ctx` is active. */
  function ParallelizeActivationGuards(guards: seq<Guard<ActivationArgs>>, ctx: Injector,
                                       route: RouteSnapshot, state: RouterState, order: seq<nat>)
    : (r: Run<ActivationArgs>)
    requires IsArrivalOrder(order, |guards|)
    ensures |guards| == 0 ==> r == Run(Decided(True), [])
    ensures |guards| > 0 ==> r.outcome == Decide(Arrivals(Settlements(guards, ctx, ActivationArgs(route, state)), order))
    ensures forall i :: 0 <= i < |guards| ==> Invoked(i, ctx, ActivationArgs(route, state)) in r.trace
    ensures forall e :: e in r.trace && e.Invoked? ==> e.ctx == ctx && e.args == ActivationArgs(route, state)
  {
    var args := ActivationArgs(route, state);
    if |guards| > 0 then
      ParallelizeDecides(guards, ctx, args, order);
      ParallelizeCallsEveryGuard(guards, ctx, args, order);
      Parallelize(guards, ctx, args, order)
    else
      Parallelize(guards, ctx, args, order)
  }
}

=== FILE: short_circuit.dfy ===
/**
 The decision rule both combinators share: `takeWhile(val => val === true, true)`
 followed by `last()`, and the documented reference it implements, "the first
 non-true result in order, or true".
 */
module ShortCircuit {
  import opened GuardResults

  /** How a finite observable ended: by completing, or with an error. */
  datatype End = Completed | Errored

  /** A finite observable as `last()` sees it: the values it emitted, in order, and how it ended. */
  datatype Emission = Emission(values: seq<GuardResult>, end: End)

  /** A combinator's stream after `takeWhile`, with the events that produced it. */
  datatype Pipeline<A> = Pipeline(emitted: Emission, trace: seq<Event<A>>)

  /** rxjs `last()` without a default value: EmptyError when the source errored or emitted nothing. */
  function Last(e: Emission): (r: Outcome)
    ensures r.Decided? <==> e.end.Completed? && |e.values| > 0
    ensures r.Decided? ==> e.values == e.values[..|e.values| - 1] + [r.value]
  {
    if e.end.Completed? && |e.values| > 0 then Decided(e.values[|e.values| - 1]) else EmptyError
  }

  /** The `takeWhile(val => val === true, true)` test: only exactly `true` continues. */
  predicate Continues(s: Settlement)
  {
    s == Value(True)
  }

  /** The first position at or after `i` whose settlement stops evaluation, or `|ss|`. */
  function StopFrom(ss: seq<Settlement>, i: nat): (k: nat)
    requires i <= |ss|
    ensures i <= k <= |ss|
    ensures forall j :: i <= j < k ==> Continues(ss[j])
    ensures k < |ss| ==> !Continues(ss[k])
    decreases |ss| - i
  {
    if i == |ss| || !Continues(ss[i]) then i else StopFrom(ss, i + 1)
  }

  /** How many settlements the short-circuit consumes: up to and including the first stopping one. */
  function Consumed(ss: seq<Settlement>): (m: nat)
    ensures m <= |ss|
  {
    var k := StopFrom(ss, 0);
    if k < |ss| then k + 1 else |ss|
  }

  /**
   The documented rule: the first non-true result, in order, returned unchanged;
   `true` when every result is `true`. A result that never came (`NoValue`) or an
   empty sequence leaves `last()` without a value.
   */
  function Decide(ss: seq<Settlement>): Outcome
  {
    var k := StopFrom(ss, 0);
    if k < |ss| then
      (if ss[k].Value? then Decided(ss[k].value) else EmptyError)
    else if |ss| == 0 then EmptyError
    else Decided(True)
  }

  /** `true` comes out exactly when there is at least one result and every result is `true`. */
  lemma DecideTrueIff(ss: seq<Settlement>)
    ensures Decide(ss) == Decided(True) <==> |ss| > 0 && forall j :: 0 <= j < |ss| ==> Continues(ss[j])
  {
    var k := StopFrom(ss, 0);
    if k < |ss| {
      assert !Continues(ss[k]);
    }
  }

  /**
   Any other decided value is the first stopping result: every earlier result is
   `true`, and the value is returned unchanged, whether `False` or a redirect.
   */
  lemma DecideStopIsFirst(ss: seq<Settlement>, v: GuardResult)
    requires Decide(ss) == Decided(v) && !v.True?
    ensures StopFrom(ss, 0) < |ss| && ss[StopFrom(ss, 0)] == Value(v)
    ensures forall j :: 0 <= j < StopFrom(ss, 0) ==> ss[j] == Value(True)
    ensures Consumed(ss) == StopFrom(ss, 0) + 1
  {
  }

  /** Everything from the first stopping result on is irrelevant: equal prefixes decide alike. */
  lemma DecideIgnoresRest(ss: seq<Settlement>, ss': seq<Settlement>)
    requires Consumed(ss) < |ss| && |ss'| == |ss|
    requires forall j :: 0 <= j < Consumed(ss) ==> ss'[j] == ss[j]
    ensures Decide(ss') == Decide(ss)
    ensures Consumed(ss') == Consumed(ss)
  {
  }
}
